=== FILE: README.md ===
# fetchapi — a Dafny model of the request helper

`fetchapi(url, options)` wraps a fetch-style network call. It layers three
process-wide stores over that call, all keyed by the same request key (an
explicit `key` option, or the URL):

- a **cache store** with a time window (`cacheFor`);
- a **request registry** that coalesces calls while a request is in flight;
- a **debounce scheduler** (`debounceFor`) with an anti-starvation override.

`customFetchapi(apiOptions)` binds default options to it.

The model turns these into pure Dafny functions over an explicit state:

| file | module | what it holds |
|---|---|---|
| `js_values.dfy` | `JsValues` | JavaScript values, plain objects as ordered property lists, property read/write/delete, `Object.assign`, ToBoolean, ASCII `toUpperCase`, the exceptions a call can end with |
| `query_strings.dfy` | `QueryStrings` | `getQueryString` and its inverse: a parser, the round trip, and when two query objects have the same shape |
| `cache_store.dfy` | `CacheStore` | `setCache` and the `useCache` hit/miss decision |
| `request_store.dfy` | `RequestStore` | `storeRequest`, `clearRequest`, `getRequestFromStore`, `getRequestKey`, and the de-duplication decision |
| `debounce.dfy` | `Debounce` | one `debounce` call as a step on the two debounce stores, and the timer firing |
| `orchestrator.dfy` | `Orchestrator` | the request descriptor (method, headers, body, URL), and the three steps that change the state |
| `lifecycle.dfy` | `Lifecycle` | properties over several steps: the state invariant, registry clean-up, de-duplication, the cache path, orphaned debounce promises, option merging |
| `scenarios.dfy` | `Scenarios` | worked examples of the request helper, replayed with concrete clock values |

The state (`Orchestrator.State`) holds:

- the cache;
- the registry;
- the debounce stores;
- the network calls still pending;
- which debounce promise ended up resolved with which request;
- a counter for fresh ids.

Three steps change the state:

- `FetchApi` is one synchronous call of `fetchapi`;
- `Fire` is a debounce timer going off;
- `Settle` is a pending network call settling with a given response.

A promise is represented by a name: a request id, or a ticket for a promise that `debounce` created. The clock is an explicit `now` argument.

Behaviours of `main.js` that are easy to miss:

- **Synchronous debounce.** A falsy debounce time (`!time`, main.js:47) runs synchronously. The model reads every `debounceFor` that is not a number as 0 (`null`, `false`, `""`, but also `"200"`), so all of them run synchronously; in JavaScript a non-empty string such as `"200"` is truthy and goes through the scheduler (see `Orchestrator.NumberOption` under "Left out"). A negative time is truthy, so it goes through the scheduler with a timer delay of 0.
- **The wait start alone decides the override.** The anti-starvation override reads only the recorded wait start (main.js:51), not the timer store. In every reachable state a recorded wait start comes with a pending timer (`Debounce.Consistent`, part of `Lifecycle.Valid`). The bound the override gives is two debounce periods after the first call (`Debounce.StepBounded`). A job runs at the latest when its timer fires, and a timer is never due later than `waitStart + 2 * time`.
- **A synchronous call leaves the timer alone.** A call with `debounceFor` 0 neither cancels nor touches a pending timer of the same key (`Scenarios.SyncKeepsPendingTimer`).
- **A stored query of `undefined` can throw.** The query string of the in-flight request is computed before the new one's. So when the in-flight request was issued without a query, a call with a truthy query throws a TypeError (`Object.keys(undefined)`) instead of issuing a request (`RequestStore.Dedup`).
- **`clearRequest` clears by key only.** A request that settles removes whatever record its key holds, including the record of a newer, overlapping request (`Lifecycle.SettleClearsNewerSlot`).
- **A zero timestamp is ignored.** A cache entry whose `cacheTime` is 0 is a miss, because the timestamp is falsy. A wait start of 0 is recorded again.
- **Bound fetchers lose the default query.** `customFetchapi` always passes an object, so a bound fetcher called without options does not get the `{query: {}}` default (`Lifecycle.BoundOptions`).

## Model

| member | source | states |
|---|---|---|
| JsValues.GetIsLastOccurrence | main.js:72-81 | a property read of a name the object has yields the value at the last position holding that name |
| JsValues.Assign | main.js:104-108 | `Object.assign`: the result has the names of both objects; a name the source has takes the source's value, every other name keeps the target's |
| JsValues.Set | main.js:104-106 | a property write: the name now reads the new value, every other name reads as before, and a new name is appended after the existing properties |
| JsValues.Delete | main.js:113 | `Reflect.deleteProperty`: the name is gone and reads `undefined`; every other name reads as before |
| JsValues.ToUpperCase | main.js:102 | no lower-case ASCII letter remains; each letter moves to its capital and every other character is unchanged |
| QueryStrings.QueryOf | main.js:36-42 | the query string starts with `?` and is exactly `?` iff the object has no properties |
| QueryStrings.QueryString | main.js:36-42 | `Object.keys` throws iff the query is `undefined` or `null`; an object gives its `?name=value&…` string; any other value gives `?` |
| QueryStrings.ParseQueryOf | main.js:36-42 | round trip: when no name holds `=` or `&` and no encoded value holds `&`, parsing the query string gives back the (name, encoded value) pairs in order |
| QueryStrings.SameQueryShape | main.js:93 | two query objects give the same query string iff they have the same names, in the same order, with the same encoded values |
| CacheStore.SetCache | main.js:3-5 | populate stores the data with the current time under its key and leaves every other key as it was |
| CacheStore.UseCache | main.js:7-18 | a hit iff an entry exists, its timestamp is non-zero, and its age is at most `cacheFor`; a hit returns the stored data |
| CacheStore.PopulateThenUse | main.js:3-18 | after populate at time t, a read is a hit with that data while `now - t <= cacheFor`, and a miss afterwards or when t is 0 |
| CacheStore.PopulateIsolated | main.js:3-18 | populating one key does not change the hit/miss decision of any other key |
| RequestStore.StoreRequest | main.js:22-24 | the key now holds the record; every other key is unchanged |
| RequestStore.ClearRequest | main.js:25-27 | the key is removed whatever record it holds (the request argument plays no part); every other key is unchanged |
| RequestStore.GetRequest | main.js:28-30 | a record is found iff the key is registered, and it is the registered one |
| RequestStore.RequestKey | main.js:32-34 | a truthy `key` option is the key (a non-string key as its property-key string); otherwise the URL |
| RequestStore.Dedup | main.js:87-100 | no record: proceed. A record with a falsy query: reuse it. A record with a truthy query: reuse iff the two query strings are equal. Throws iff the stored query is `undefined` or `null` and the new query is truthy |
| Debounce.Step | main.js:46-68 | `time == 0` iff synchronous, with no bookkeeping. Otherwise it runs at once iff the recorded wait start is truthy and strictly more than `time` old, clearing both entries. Otherwise one timer holds the latest job, due after `max(time, 0)`; the wait start is recorded on the first call and kept after that. Other keys are untouched |
| Debounce.Fire | main.js:62-66 | a timer fires iff it exists and is due; firing removes both entries of the key and hands back the job with its promise ticket |
| Debounce.StepConsistent | main.js:53-64 | a debounce step keeps the timer and wait-start stores on the same keys |
| Debounce.FireConsistent | main.js:62-64 | firing keeps the two stores on the same keys |
| Debounce.StepBounded | main.js:46-67 | anti-starvation: under a fixed positive time, every step keeps the pending timer due within `2 * time` of the wait start |
| Debounce.FireBounded | main.js:62-64 | firing any key keeps that bound |
| JsValues.Truthy | main.js:33 | the falsy values are exactly `undefined`, `null`, `false`, `0` and `""` |
| Orchestrator.Init | main.js:1-45 | the cache, the registry and both debounce stores start empty, with no pending request and no bound ticket |
| Orchestrator.OptionsOf | main.js:71 | a call without options gets exactly `{query: {}}`; given options are used as they are |
| Orchestrator.NumberOption | main.js:76-77 | a numeric option is its number; absent, it takes the default 0 |
| Orchestrator.RequestMethod | main.js:102 | a falsy method is `GET`; a string is upper-cased; any other truthy value throws |
| Orchestrator.RequestHeaders | main.js:106-114 | the caller's headers over a JSON `Content-Type`. The caller's `Content-Type` wins; `false` there removes the header; every other caller header passes through unchanged |
| Orchestrator.RequestBody | main.js:107 | a FormData body is sent as is; any other body is JSON.stringify'd |
| Orchestrator.Target | main.js:116-118 | the query string is appended exactly for a GET with a truthy query |
| Orchestrator.FetchOptions | main.js:104-114 | the fetch options carry the computed method, headers and body; every other option is copied from the caller's options |
| Orchestrator.Prepare | main.js:102-118 | the descriptor fails iff the method fails; otherwise it holds the method, the target URL and the fetch options |
| Orchestrator.NewCall | main.js:102-143 | the prepared request fails exactly when the method cannot be upper-cased; otherwise it sends the `FetchOptions` descriptor built from the caller's options (the caller's query among them) to the `Target` URL, and keeps the caller's error handler and key, populating the cache iff `cacheFor > 0` |
| Orchestrator.Launch | main.js:120-141 | jsonFetch issues a fresh request and registers it under its key with its fetch options before it can settle |
| Orchestrator.Debounced | main.js:143 | a zero debounce time issues the request at once and returns its promise. Any other time returns a fresh debounce promise and takes the debounce step. When the wait has lasted longer than the time, request `next + 1` goes out at once, is registered under its key and resolves the ticket. Otherwise nothing goes out, and the key's timer holds the call with that ticket |
| Orchestrator.Dispatch | main.js:143-149 | with `cacheFor > 0`, the answer comes from the cache iff the entry is fresh, with the state unchanged; otherwise the call goes through debounce |
| Orchestrator.FetchApi | main.js:71-150 | a call never writes the cache; an empty URL throws; a throw, a reused request or a cache hit leave the state unchanged |
| Orchestrator.Fire | main.js:62-66 | a due timer issues its job's request, registers it under the job's key with its fetch options, and resolves its ticket with it; otherwise nothing changes. The timers and wait starts of other keys are untouched |
| Orchestrator.Outcome | main.js:121-136 | an ok response resolves with its body and a failed fetch rejects. A non-ok response rejects with the API error under the default handler. A caller's handler that throws rejects, one that returns lets the body through, and a handler that is not a function throws a TypeError |
| Orchestrator.Settle | main.js:120-141 | settling a pending request removes it and clears its key on both paths, and populates the cache only on success of a cached call |
| Orchestrator.CustomFetchApi | main.js:152-156 | a bound fetcher never writes the cache; an empty URL throws; a throw, a reused request or a cache hit leave the state unchanged |
| Orchestrator.MergeOptions | main.js:152-156 | a call-site option wins over a bound default on a shared name; every other default survives |
| Lifecycle.InitValid | main.js:1-45 | the empty stores satisfy the state invariant |
| Lifecycle.LaunchValid | main.js:120-141 | issuing a request keeps the invariant |
| Lifecycle.StepKeepsValid | main.js:46-68 | a debounce step with a fresh ticket keeps the invariant |
| Lifecycle.DebouncedValid | main.js:143 | the debounced request step keeps the invariant |
| Lifecycle.FetchApiValid | main.js:71-150 | every call of fetchapi keeps the invariant: each registered record names a pending request of that key, ids are fresh, and pending tickets are distinct and unresolved |
| Lifecycle.FireValid | main.js:62-66 | a timer firing keeps the invariant |
| Lifecycle.SettleValid | main.js:128-136 | settling keeps the invariant |
| Lifecycle.ReuseJoins | main.js:87-100 | whenever the de-duplication decision reuses the in-flight record — the new query is falsy, or both query strings are equal — the call returns that record's promise and changes nothing |
| RequestStore.SameQueryReuses | main.js:90-99 | a call whose query is the very value the in-flight record was issued with always reuses that record |
| Lifecycle.GoesOutIff | main.js:83-149 | a call issues a new request or hands out a debounce promise iff the URL is set, de-duplication lets it through, the method is valid and the cache does not answer it; it issues the request at once iff `debounceFor` is 0 |
| Lifecycle.DirectIsRecorded | main.js:138 | a call that goes out with `debounceFor` 0 issues a fresh request at once: the network call sends the `FetchOptions` descriptor of the caller's options to the `Target` URL, and the registry records that request under its key with the same descriptor, hence with the caller's query |
| Lifecycle.RepeatJoinsInFlight | main.js:87-138 | repeating a call that issued a request at once returns the very promise of that request, with no new network call |
| Lifecycle.SettledIsNotReused | main.js:129-134 | once a request settles, on either path, the next call under its key does not reuse it |
| Lifecycle.ReusedIsInFlight | main.js:97-99 | in a valid state a reused promise belongs to a request still in flight |
| Lifecycle.ConflictCached | main.js:145-149 | every call the registry lets proceed (in particular one whose query string conflicts with the in-flight request's) issues no request when `cacheFor > 0` and the key's cache entry is fresh: the cache answers with the stored data, and no store changes |
| Lifecycle.CachedIffFresh | main.js:145-149 | with nothing in flight and `cacheFor > 0`, a call is answered from the cache iff the entry is fresh, with the stored data; with `cacheFor <= 0` never |
| Lifecycle.ConflictOverlaps | main.js:90-96 | for a call without caching (`cacheFor <= 0`) and without debounce (`debounceFor` 0), a different query string under an in-flight key issues a second, overlapping request that takes over the registry slot while the first still runs |
| Lifecycle.SettleClearsNewerSlot | main.js:129-134 | when the older of two overlapping requests settles, it clears the slot the newer one holds |
| Lifecycle.SupersededIsOrphaned | main.js:60-61 | a debounced call that replaces a pending timer leaves the old timer's promise unresolved and held by no timer |
| Lifecycle.DebouncedOrphans | main.js:60-67 | the debounce step itself drops the replaced ticket |
| Lifecycle.DebouncedKeepsOrphaned | main.js:46-68 | a debounce step never resolves a dropped ticket |
| Lifecycle.OrphanedStaysOnFetch | main.js:71-150 | no later call resolves a dropped promise |
| Lifecycle.OrphanedStaysOnFire | main.js:62-66 | no timer firing resolves a dropped promise |
| Lifecycle.OrphanedStaysOnSettle | main.js:120-141 | no settling request resolves a dropped promise |
| Lifecycle.BoundOptions | main.js:152-156 | call-site options win and defaults survive; a bound fetcher called without options has no `query` unless the defaults give one |
| Scenarios.QueryExample | main.js:36-42 | `{a: 1, b: "x y"}` gives `?a=1&b=x%20y` |
| Scenarios.QueryOrderMatters | main.js:37-41 | the same properties in another order give a different query string |
| Scenarios.ContentTypeSuppressed | main.js:110-114 | `Content-Type: false` leaves no Content-Type header and keeps the others |
| Scenarios.TrailingEdge | main.js:46-67 | three calls 50 ms apart with a 200 ms debounce leave one timer with the last job, due 200 ms after the last call |
| Scenarios.WaitedLongEnough | main.js:51-54 | under continuous calls, the first call more than 200 ms after the wait began runs at once and clears the key |
| Scenarios.SyncKeepsPendingTimer | main.js:47-49 | a synchronous call leaves the pending timer of its key in place |
| Scenarios.CacheWindow | main.js:13-17 | an entry is a hit at exactly `cacheFor` ms old and a miss one ms later |
| Scenarios.DefaultQueryAddsMark | main.js:71 | fetchapi without options fetches `url?`, because the default `{query: {}}` is truthy |
| Scenarios.BoundFetcherSkipsDefaultQuery | main.js:152-156 | a fetcher bound to no defaults, called without options, fetches `url` itself |
| Scenarios.FirstCall | main.js:116-149 | on fresh stores, a call without cache or debounce issues request 0 at once, fetching the URL with the query string appended exactly for a GET with a truthy query |
| Scenarios.EqualQueryStringsJoin | main.js:90-99 | with `{a: 1}` in flight, a call with `{a: "1"}` gets the same promise back, because both give `?a=1` |
| Scenarios.CacheHitEndToEnd | main.js:120-149 | a cached call that succeeded is served from the cache within its window, and issues a new request after it |

## Left out

- The network call, `response.json()` and `response.ok` are outside the model. A settling call is the `Settle` step, with its response (body already parsed) as input.
- Promise and timer mechanics are outside the model. Promises are names (request ids and debounce tickets); `setTimeout`/`clearTimeout` are the timer entries of the debounce store and the `Fire` step. The order in which settled promises run their callbacks is not modelled.
- `Date.now()` is the explicit `now` argument of every step.
- `encodeURIComponent`, `JSON.stringify`, property-key conversion of a non-string `key`, and a caller's `errorHandler` are calls into code outside the model, given as the function fields of `Orchestrator.Host`. The `body instanceof FormData` test (main.js:107) is a value kind of its own: `JsVal.FormData(id)` is a FormData instance, and no other value is one. A `URIError` from encoding and a throw from `JSON.stringify` are not modelled.
- Enumeration order of integer-like property names (which JavaScript lists first, in numeric order) is not modelled: objects list their properties in insertion order.
- Names inherited from `Object.prototype` (such as `constructor`) are not modelled. In the real stores they read as inherited values instead of as absent entries.
- Orchestrator.NumberOption: reads `cacheFor` and `debounceFor` only when they are numbers and treats every other value as 0, so JavaScript's numeric coercion of strings and other values in `>` and `-` is not modelled.
- QueryStrings.QueryString: a query that is a string or another non-object primitive is treated as having no own keys. A string's index keys are not modelled.
- Orchestrator.RequestHeaders: headers given as a non-object are treated as having no properties.
- JsValues.ToUpperCase: upper-cases ASCII letters only, not the full Unicode case mapping.
- Orchestrator.RequestMethod: every truthy method that is not a string throws a TypeError in the model. In JavaScript, `options.method.toUpperCase()` (main.js:102) succeeds for any value whose `toUpperCase` can be called: an object with its own `toUpperCase` function, or a `String` wrapper object. Calling a method that a value carries is not modelled, and `JsVal` has no wrapper objects.
- JsValues.Truthy: ToBoolean covers only the modelled values. `NaN` and the other number and object cases outside `JsVal` are not modelled.
- Orchestrator.FetchApi: `options` is either absent (the `{query: {}}` default) or a plain object. Of the other values, only `null` throws in JavaScript (a TypeError from the destructuring at main.js:72); a boolean or number behaves like `{}`, which the model expresses as `Some([])`. A string option is not modelled: `Object.assign` at main.js:104 would copy its characters as index properties into the request descriptor.
- After an immediate run, the debounce store holds `undefined` for the key until the next scheduled call under that key overwrites it. The model treats that entry as absent; this changes nothing, because `clearTimeout(undefined)` does nothing and the store is read nowhere else.
- Orchestrator.CustomFetchApi: its own contract states only the frame and the empty-URL throw. The option merge it applies is stated by `Orchestrator.MergeOptions` and `Lifecycle.BoundOptions`, and its observable effect by `Scenarios.DefaultQueryAddsMark` and `Scenarios.BoundFetcherSkipsDefaultQuery`.
- RequestStore.Dedup: options, queries, headers and cached data are immutable values in the model, while in JavaScript they are shared objects. `main.js:104` copies the options shallowly, so the stored `fetchOptions.query` is the caller's own object, and `main.js:17`/`main.js:146` hand out the cached object itself. A caller that mutates its query object after a call changes the stored query shape too. For example, calling `fetchapi('/x', {query: q})`, then setting `q.page = 2` and calling again, reuses the first request in JavaScript, because both query strings now read `?page=2`. The model compares against the query as it was when the first call was made. Aliasing and mutation of caller objects are not modelled.
- JsValues.JsVal: numbers are unbounded integers (`Num(n: int)`), not IEEE doubles. Fractions, `Infinity` and `NaN` are not modelled. So the model misses two behaviours: `cacheFor: Infinity` never expires an entry (main.js:13), and `debounceFor: NaN` is falsy and runs synchronously (main.js:47).
- Debounce.Step: `setTimeout` does not take every positive delay as given. Browsers convert the delay to a signed 32-bit integer (modulo 2^32), so a delay above 2^31 − 1 ms wraps and fires at once only when the wrapped value is 0 or negative; Node.js fires any delay above 2^31 − 1 ms after 1 ms. The model sets the timer due at `now + time` for every positive time.
- Request cancellation is not implemented in the source and not modelled.

=== FILE: cache_store.dfy ===
/** The process-wide cache store: key -> (data, cacheTime).

    `useCache` only decides between a hit and a miss; it never writes. The
    store changes only through the populate callback a miss hands to the
    producer, which is `SetCache` under the same key. The clock is the
    explicit `now`. */
module CacheStore {
  import opened JsValues

  datatype Entry = Entry(data: JsVal, cacheTime: nat)

  type Cache = map<Key, Entry>

  datatype Lookup = Hit(data: JsVal) | Miss

  /** setCache: stores `(data, now)` under `key`, overwriting any entry. */
  function SetCache(cache: Cache, key: Key, data: JsVal, now: nat): (r: Cache)
    ensures key in r && r[key] == Entry(data, now)
    ensures forall k :: k != key ==> (k in r <==> k in cache)
    ensures forall k :: k != key && k in cache ==> r[k] == cache[k]
  {
    cache[key := Entry(data, now)]
  }

  /** A stored entry is fresh when its cacheTime is set (a zero timestamp is
      falsy) and its age does not exceed `cacheFor`. */
  predicate Fresh(cache: Cache, key: Key, cacheFor: int, now: nat)
  {
    key in cache && cache[key].cacheTime != 0 && now - cache[key].cacheTime <= cacheFor
  }

  /** useCache's decision: the stored data on a fresh entry, a miss
      otherwise. An age of exactly `cacheFor` is still a hit. */
  function UseCache(cache: Cache, key: Key, cacheFor: int, now: nat): (r: Lookup)
    ensures r.Hit? <==> Fresh(cache, key, cacheFor, now)
    ensures r.Hit? ==> r.data == cache[key].data
  {
    if key !in cache || cache[key].cacheTime == 0 then Miss
    else if now - cache[key].cacheTime > cacheFor then Miss
    else Hit(cache[key].data)
  }

  /** Reading back what populate stored at time `t`: a hit with that data
      while the age is within the window, a miss afterwards, and always a
      miss when the timestamp was zero. */
  lemma PopulateThenUse(cache: Cache, key: Key, data: JsVal, t: nat, cacheFor: int, now: nat)
    ensures UseCache(SetCache(cache, key, data, t), key, cacheFor, now) ==
      if t != 0 && now - t <= cacheFor then Hit(data) else Miss
  {
  }

  /** Populating one key leaves the decision for every other key unchanged. */
  lemma PopulateIsolated(cache: Cache, key: Key, data: JsVal, t: nat, other: Key, cacheFor: int, now: nat)
    requires other != key
    ensures UseCache(SetCache(cache, key, data, t), other, cacheFor, now) == UseCache(cache, other, cacheFor, now)
  {
  }
}

=== FILE: debounce.dfy ===
/** The debounce scheduler: per key, a pending timer and the time the
    current wait started (`debounceStore` and `debounceWaitStore`).

    A timer is a state entry holding the job it will run, the promise
    ticket that job resolves, and the time it is due; `Fire` is the explicit
    "the timer went off" step. Replacing a timer drops its ticket: the
    promise handed out for it is never resolved. The job type is generic. */
module Debounce {
  import opened JsValues

  datatype Timer<J> = Timer(job: J, ticket: nat, dueAt: nat)

  datatype Store<J> = Store(timers: map<Key, Timer<J>>, waitStart: map<Key, nat>)

  /** RunSync: `time` is 0, the job runs now and its own result is returned.
      RunNow: the wait has lasted longer than `time`; the job runs now
      inside a fresh promise. Scheduled: a timer now holds the job. */
  datatype Decision = RunSync | RunNow | Scheduled

  function Empty<J>(): Store<J>
  {
    Store(map[], map[])
  }

  /** `debounceWaitStore[key]` is truthy: present and not a zero timestamp. */
  predicate Waiting<J>(s: Store<J>, key: Key)
  {
    key in s.waitStart && s.waitStart[key] != 0
  }

  /** One call of debounce(key, time, job) at time `now`. */
  function Step<J>(s: Store<J>, key: Key, time: int, now: nat, job: J, ticket: nat): (r: (Store<J>, Decision))
    // no bookkeeping at all on the synchronous path
    ensures time == 0 <==> r.1 == RunSync
    ensures time == 0 ==> r.0 == s
    // the anti-starvation override: strictly longer than `time`
    ensures time != 0 ==> (r.1 == RunNow <==> Waiting(s, key) && now - s.waitStart[key] > time)
    // running clears both entries of the key
    ensures r.1 == RunNow ==> key !in r.0.timers && key !in r.0.waitStart
    // scheduling replaces any pending timer of the key
    ensures r.1 == Scheduled ==>
      key in r.0.timers && r.0.timers[key] == Timer(job, ticket, if time > 0 then now + time else now)
    // the first call of a wait records its start; later ones keep it
    ensures r.1 == Scheduled && !Waiting(s, key) ==> key in r.0.waitStart && r.0.waitStart[key] == now
    ensures r.1 == Scheduled && Waiting(s, key) ==> key in r.0.waitStart && r.0.waitStart[key] == s.waitStart[key]
    // other keys are untouched
    ensures forall k :: k != key ==> (k in r.0.timers <==> k in s.timers) && (k in r.0.waitStart <==> k in s.waitStart)
    ensures forall k :: k != key && k in s.timers ==> r.0.timers[k] == s.timers[k]
    ensures forall k :: k != key && k in s.waitStart ==> r.0.waitStart[k] == s.waitStart[k]
  {
    if time == 0 then (s, RunSync)
    else if Waiting(s, key) && now - s.waitStart[key] > time then
      // clearTimeout of the old timer, then the job runs at once and its
      // callback deletes both entries of the key
      (Store(s.timers - {key}, s.waitStart - {key}), RunNow)
    else
      var waitStart := if Waiting(s, key) then s.waitStart else s.waitStart[key := now];
      // setTimeout treats a negative delay as zero
      var dueAt := if time > 0 then now + time else now;
      (Store(s.timers[key := Timer(job, ticket, dueAt)], waitStart), Scheduled)
  }

  /** The timer of `key` goes off at `now` when it is due: both entries of
      the key are removed and the job it held is handed back to run. */
  function Fire<J>(s: Store<J>, key: Key, now: nat): (r: (Store<J>, Option<Timer<J>>))
    ensures r.1.Some? <==> key in s.timers && s.timers[key].dueAt <= now
    ensures r.1.Some? ==> r.1.value == s.timers[key] && key !in r.0.timers && key !in r.0.waitStart
    ensures r.1.None? ==> r.0 == s
    ensures forall k :: k != key ==> (k in r.0.timers <==> k in s.timers) && (k in r.0.waitStart <==> k in s.waitStart)
    ensures forall k :: k != key && k in s.timers ==> r.0.timers[k] == s.timers[k]
    ensures forall k :: k != key && k in s.waitStart ==> r.0.waitStart[k] == s.waitStart[k]
  {
    if key in s.timers && s.timers[key].dueAt <= now then
      (Store(s.timers - {key}, s.waitStart - {key}), Some(s.timers[key]))
    else (s, None)
  }

  /** Every key with a pending timer has a recorded wait start, and vice versa. */
  ghost predicate Consistent<J>(s: Store<J>)
  {
    s.timers.Keys == s.waitStart.Keys
  }

  /** Under a fixed positive `time`, the pending timer of `key` is due no
      later than twice `time` after the wait began. */
  ghost predicate Bounded<J>(s: Store<J>, key: Key, time: int)
  {
    key in s.timers ==> key in s.waitStart && s.timers[key].dueAt <= s.waitStart[key] + 2 * time
  }

  lemma StepConsistent<J>(s: Store<J>, key: Key, time: int, now: nat, job: J, ticket: nat)
    requires Consistent(s)
    ensures Consistent(Step(s, key, time, now, job, ticket).0)
  {
  }

  lemma FireConsistent<J>(s: Store<J>, key: Key, now: nat)
    requires Consistent(s)
    ensures Consistent(Fire(s, key, now).0)
  {
  }

  /** Anti-starvation: with the same positive `time` on every call under a
      key, each step keeps the pending timer within `2 * time` of the wait
      start. So the job runs no later than that: either its timer fires, or
      a call arriving after `time` has passed runs it at once. */
  lemma StepBounded<J>(s: Store<J>, key: Key, time: int, now: nat, job: J, ticket: nat)
    requires time > 0
    requires Bounded(s, key, time)
    ensures Bounded(Step(s, key, time, now, job, ticket).0, key, time)
  {
  }

  lemma FireBounded<J>(s: Store<J>, key: Key, time: int, now: nat, other: Key)
    requires Bounded(s, key, time)
    ensures Bounded(Fire(s, other, now).0, key, time)
  {
  }
}

=== FILE: js_values.dfy ===
/** JavaScript values, plain objects and exceptions, as far as the request
    helper inspects them.

    A plain object is its list of own enumerable properties in enumeration
    order. A real object never lists a name twice; the operations below do
    not rely on that: reading a property sees its LAST occurrence, and
    writing a property overwrites every occurrence, so both agree with
    JavaScript on every object JavaScript can build. */
module JsValues {

  datatype Option<T> = None | Some(value: T)

  datatype Result<T> = Ok(value: T) | Err(error: Error)

  /** A property name of one of the process-wide stores. */
  type Key = string

  datatype JsVal =
    | Undefined
    | Null
    | Bool(b: bool)
    | Num(n: int)
    | Str(s: string)
    | Object(props: seq<Prop>)
    | FormData(id: nat)
    | Function(id: nat)

  datatype Prop = Prop(name: string, value: JsVal)

  /** The exceptions a call can end with. */
  datatype Error =
    | MissingUrl              // the explicit "requires a `url` option" error
    | NullToObject            // TypeError: Object.keys of undefined or null
    | NotAFunction            // TypeError: calling a value that is not a function
    | ApiError(status: int)   // what the default errorHandler throws
    | Raised(value: JsVal)    // anything a caller's handler or the network rejects with

  /** ToBoolean: `undefined`, `null`, `false`, `0` and `""` are falsy. */
  predicate Truthy(v: JsVal): (b: bool)
    ensures b <==> v !in {Undefined, Null, Bool(false), Num(0), Str("")}
  {
    match v
    case Undefined => false
    case Null => false
    case Bool(b) => b
    case Num(n) => n != 0
    case Str(s) => s != ""
    case _ => true
  }

  /** The property names an object has. */
  function Names(o: seq<Prop>): set<string>
  {
    if |o| == 0 then {} else Names(o[..|o| - 1]) + {o[|o| - 1].name}
  }

  /** `o[name]`: the value of the last property called `name`, or `undefined`. */
  function Get(o: seq<Prop>, name: string): (v: JsVal)
    ensures name !in Names(o) ==> v == Undefined
  {
    if |o| == 0 then Undefined
    else if o[|o| - 1].name == name then o[|o| - 1].value
    else Get(o[..|o| - 1], name)
  }

  /** What `Get` reads: the property at the last position holding `name`. */
  lemma {:induction false} GetIsLastOccurrence(o: seq<Prop>, name: string)
    requires name in Names(o)
    ensures exists i :: (0 <= i < |o| && o[i] == Prop(name, Get(o, name)) &&
                         forall j :: i < j < |o| ==> o[j].name != name)
  {
    var n := |o| - 1;
    if o[n].name != name {
      GetIsLastOccurrence(o[..n], name);
      var i :| 0 <= i < n && o[..n][i] == Prop(name, Get(o[..n], name)) &&
        forall j :: i < j < n ==> o[..n][j].name != name;
      assert o[i] == Prop(name, Get(o, name));
      assert forall j :: i < j < |o| ==> o[j].name != name by {
        assert forall j :: i < j < n ==> o[..n][j] == o[j];
      }
    }
  }

  lemma NamesSnoc(o: seq<Prop>, p: Prop)
    ensures Names(o + [p]) == Names(o) + {p.name}
  {
    assert (o + [p])[..|o|] == o;
  }

  lemma GetSnoc(o: seq<Prop>, p: Prop, k: string)
    ensures Get(o + [p], k) == if p.name == k then p.value else Get(o, k)
  {
    assert (o + [p])[..|o|] == o;
  }

  /** Overwrites every property called `name` with `v`, keeping its position. */
  function Replace(o: seq<Prop>, name: string, v: JsVal): (r: seq<Prop>)
    ensures |r| == |o|
    ensures Names(r) == Names(o)
    ensures Get(r, name) == if name in Names(o) then v else Undefined
    ensures forall k :: k != name ==> Get(r, k) == Get(o, k)
  {
    if |o| == 0 then []
    else
      var init := o[..|o| - 1];
      var last := o[|o| - 1];
      var p := if last.name == name then Prop(name, v) else last;
      var r := Replace(init, name, v) + [p];
      NamesSnoc(Replace(init, name, v), p);
      assert o == init + [last];
      NamesSnoc(init, last);
      GetSnoc(Replace(init, name, v), p, name);
      forall k | k != name
        ensures Get(r, k) == Get(o, k)
      {
        GetSnoc(Replace(init, name, v), p, k);
        GetSnoc(init, last, k);
      }
      r
  }

  /** An object literal with three distinctly named properties. */
  lemma ThreeProps(a: Prop, b: Prop, c: Prop)
    requires a.name != b.name && a.name != c.name && b.name != c.name
    ensures Names([a, b, c]) == {a.name, b.name, c.name}
    ensures Get([a, b, c], a.name) == a.value
    ensures Get([a, b, c], b.name) == b.value
    ensures Get([a, b, c], c.name) == c.value
  {
    assert [a, b, c] == [a, b] + [c];
    assert [a, b] == [a] + [b];
    assert [a] == [] + [a];
    NamesSnoc([], a);
    NamesSnoc([a], b);
    NamesSnoc([a, b], c);
    GetSnoc([a, b], c, a.name);
    GetSnoc([a, b], c, b.name);
    GetSnoc([a, b], c, c.name);
    GetSnoc([a], b, a.name);
    GetSnoc([a], b, b.name);
    GetSnoc([], a, a.name);
  }

  /** Object.assign with a three-property literal as its source. */
  lemma AssignThree(target: seq<Prop>, a: Prop, b: Prop, c: Prop)
    requires a.name != b.name && a.name != c.name && b.name != c.name
    ensures forall k :: Get(Assign(target, [a, b, c]), k) == ThreeGet(target, a, b, c, k)
  {
    ThreeProps(a, b, c);
    var lit := [a, b, c];
    forall k
      ensures Get(Assign(target, lit), k) == ThreeGet(target, a, b, c, k)
    {
      if k == a.name {
      } else if k == b.name {
      } else if k == c.name {
      } else {
        assert k !in Names(lit);
      }
    }
  }

  function ThreeGet(target: seq<Prop>, a: Prop, b: Prop, c: Prop, k: string): JsVal
  {
    if k == a.name then a.value
    else if k == b.name then b.value
    else if k == c.name then c.value
    else Get(target, k)
  }

  /** `o[name] = v`: an existing property keeps its place, a new one goes last. */
  function Set(o: seq<Prop>, name: string, v: JsVal): (r: seq<Prop>)
    ensures Get(r, name) == v
    ensures forall k :: k != name ==> Get(r, k) == Get(o, k)
    ensures Names(r) == Names(o) + {name}
    ensures name in Names(o) ==> |r| == |o|
    ensures name !in Names(o) ==> |r| == |o| + 1 && r[..|o|] == o
  {
    if name in Names(o) then Replace(o, name, v)
    else
      var r := o + [Prop(name, v)];
      NamesSnoc(o, Prop(name, v));
      GetSnoc(o, Prop(name, v), name);
      forall k | k != name
        ensures Get(r, k) == Get(o, k)
      {
        GetSnoc(o, Prop(name, v), k);
      }
      assert r[..|o|] == o;
      r
  }

  /** `delete o[name]`: removes every property called `name`. */
  function Delete(o: seq<Prop>, name: string): (r: seq<Prop>)
    ensures Names(r) == Names(o) - {name}
    ensures Get(r, name) == Undefined
    ensures forall k :: k != name ==> Get(r, k) == Get(o, k)
  {
    if |o| == 0 then []
    else
      var init := o[..|o| - 1];
      var last := o[|o| - 1];
      assert o == init + [last];
      NamesSnoc(init, last);
      if last.name == name then
        var r := Delete(init, name);
        forall k | k != name
          ensures Get(r, k) == Get(o, k)
        {
          GetSnoc(init, last, k);
        }
        r
      else
        var r := Delete(init, name) + [last];
        NamesSnoc(Delete(init, name), last);
        GetSnoc(Delete(init, name), last, name);
        forall k | k != name
          ensures Get(r, k) == Get(o, k)
        {
          GetSnoc(Delete(init, name), last, k);
          GetSnoc(init, last, k);
        }
        r
  }

  /** `Object.assign(target, source)`: the properties of `source`, in order,
      written into `target`. A name `source` has takes its value from
      `source`; every other name keeps its value from `target`. */
  function Assign(target: seq<Prop>, source: seq<Prop>): (r: seq<Prop>)
    ensures Names(r) == Names(target) + Names(source)
    ensures forall k :: Get(r, k) == if k in Names(source) then Get(source, k) else Get(target, k)
  {
    if |source| == 0 then target
    else
      var init := source[..|source| - 1];
      var last := source[|source| - 1];
      assert source == init + [last];
      NamesSnoc(init, last);
      var r := Set(Assign(target, init), last.name, last.value);
      forall k
        ensures Get(r, k) == if k in Names(source) then Get(source, k) else Get(target, k)
      {
        GetSnoc(init, last, k);
      }
      r
  }

  /** A property read on any value: only objects have properties here. */
  function PropOf(v: JsVal, name: string): (r: JsVal)
    ensures !v.Object? ==> r == Undefined
  {
    if v.Object? then Get(v.props, name) else Undefined
  }

  /** The own enumerable properties `Object.assign` copies from a source value. */
  function OwnProps(v: JsVal): seq<Prop>
  {
    if v.Object? then v.props else []
  }

  /** String.prototype.toUpperCase on the ASCII letters. */
  function UpperChar(c: char): (r: char)
  {
    if 'a' <= c <= 'z' then (c as int - 32) as char else c
  }

  function ToUpperCase(s: string): (r: string)
    ensures |r| == |s|
    ensures forall i :: 0 <= i < |r| ==> !('a' <= r[i] <= 'z')
    ensures forall i :: 0 <= i < |s| && !('a' <= s[i] <= 'z') ==> r[i] == s[i]
    ensures forall i :: 0 <= i < |s| && 'a' <= s[i] <= 'z' ==> r[i] as int == s[i] as int - 32
  {
    seq(|s|, i requires 0 <= i < |s| => UpperChar(s[i]))
  }
}

=== FILE: lifecycle.dfy ===
/** Properties of fetchapi that span several steps: the invariant every
    reachable state keeps, the registry lifecycle, de-duplication, the
    cache path, and debounce promises that are orphaned. */
module Lifecycle {
  import opened JsValues
  import opened QueryStrings
  import opened CacheStore
  import opened RequestStore
  import Debounce
  import opened Orchestrator

  /** Every registry record names a request that has not settled yet and
      was issued under that key; ids and tickets in use are all below
      `next`; a pending timer's ticket is not resolved yet; and the two
      debounce stores have the same keys. */
  ghost predicate Valid(st: State)
  {
    && (forall k :: k in st.registry ==>
          st.registry[k].request in st.network && st.network[st.registry[k].request].key == k)
    && (forall id :: id in st.network ==> id < st.next)
    && (forall t :: t in st.bound ==> t < st.next)
    && (forall k :: k in st.debounce.timers ==>
          st.debounce.timers[k].ticket < st.next && st.debounce.timers[k].ticket !in st.bound)
    && (forall k1, k2 :: k1 in st.debounce.timers && k2 in st.debounce.timers && k1 != k2 ==>
          st.debounce.timers[k1].ticket != st.debounce.timers[k2].ticket)
    && Debounce.Consistent(st.debounce)
  }

  /** An id handed out earlier that no pending timer holds and that no
      ticket binding resolves. Every request id satisfies this trivially;
      the predicate matters for a ticket a `Deferred` reply handed out,
      where it says that promise can no longer be resolved: the call it
      stood for was superseded. */
  ghost predicate Orphaned(st: State, ticket: nat)
  {
    && ticket < st.next
    && ticket !in st.bound
    && forall k :: k in st.debounce.timers ==> st.debounce.timers[k].ticket != ticket
  }

  /** The inputs on which fetchapi issues a new request, at once when
      `debounceFor` is 0 and through the debounce scheduler otherwise: the
      URL is set, de-duplication lets the call through, the method is
      valid, and the cache does not answer it. */
  ghost predicate GoesOut(st: State, host: Host, now: nat, url: string, options: Option<seq<Prop>>)
  {
    var o := OptionsOf(options);
    var key := RequestKey(url, o, host.propertyKey);
    && url != ""
    && Dedup(st.registry, key, Get(o, "query"), host.encode).Proceed?
    && RequestMethod(o).Ok?
    && !(NumberOption(o, "cacheFor") > 0 && Fresh(st.cache, key, NumberOption(o, "cacheFor"), now))
  }

  /** ... and those are exactly the calls answered with a fresh request or a
      debounce promise. */
  lemma GoesOutIff(st: State, host: Host, now: nat, url: string, options: Option<seq<Prop>>)
    ensures GoesOut(st, host, now, url, options) <==>
            (FetchApi(st, host, now, url, options).1.Direct? || FetchApi(st, host, now, url, options).1.Deferred?)
    ensures GoesOut(st, host, now, url, options) ==>
            (FetchApi(st, host, now, url, options).1.Direct? <==> NumberOption(OptionsOf(options), "debounceFor") == 0)
  {
    var o := OptionsOf(options);
    var reply := FetchApi(st, host, now, url, options).1;
    if url != "" {
      var key := RequestKey(url, o, host.propertyKey);
      var verdict := Dedup(st.registry, key, Get(o, "query"), host.encode);
      if verdict.Proceed? && RequestMethod(o).Ok? {
        var call := NewCall(url, o, host, key).value;
        var cacheFor := NumberOption(o, "cacheFor");
        var time := NumberOption(o, "debounceFor");
        assert reply == Dispatch(st, now, call, cacheFor, time).1;
      } else if verdict.Proceed? {
        assert NewCall(url, o, host, key).Err?;
        assert reply.Throws?;
      } else {
        assert reply.Throws? || reply.Existing?;
      }
    }
  }

  lemma InitValid()
    ensures Valid(Init())
  {
  }

  lemma LaunchValid(st: State, call: Call)
    requires Valid(st)
    ensures Valid(Launch(st, call).0)
  {
  }

  lemma DebouncedValid(st: State, now: nat, call: Call, time: int)
    requires Valid(st)
    ensures Valid(Debounced(st, now, call, time).0)
  {
    var ticket := st.next;
    var (store, decision) := Debounce.Step(st.debounce, call.key, time, now, call, ticket);
    Debounce.StepConsistent(st.debounce, call.key, time, now, call, ticket);
    match decision
    case RunSync =>
      LaunchValid(st, call);
    case RunNow =>
      var s0 := st.(debounce := store, next := ticket + 1);
      StepKeepsValid(st, store, call.key, ticket);
      LaunchValid(s0, call);
    case Scheduled =>
      StepKeepsValid(st, store, call.key, ticket);
  }

  /** A debounce step under `key` with the fresh ticket `st.next` leaves a
      valid state once `next` moves past that ticket. */
  lemma StepKeepsValid(st: State, store: Debounce.Store<Call>, key: Key, ticket: nat)
    requires Valid(st)
    requires ticket == st.next
    requires Debounce.Consistent(store)
    requires forall k :: k != key ==> (k in store.timers <==> k in st.debounce.timers)
    requires forall k :: k != key && k in st.debounce.timers ==> store.timers[k] == st.debounce.timers[k]
    requires key in store.timers ==> store.timers[key].ticket == ticket
    ensures Valid(st.(debounce := store, next := ticket + 1))
  {
    var s0 := st.(debounce := store, next := ticket + 1);
    forall k1, k2 | k1 in store.timers && k2 in store.timers && k1 != k2
      ensures store.timers[k1].ticket != store.timers[k2].ticket
    {
      if k1 != key && k2 != key {
        assert store.timers[k1] == st.debounce.timers[k1];
        assert store.timers[k2] == st.debounce.timers[k2];
      }
    }
  }

  lemma FetchApiValid(st: State, host: Host, now: nat, url: string, options: Option<seq<Prop>>)
    requires Valid(st)
    ensures Valid(FetchApi(st, host, now, url, options).0)
  {
    var o := OptionsOf(options);
    var r := FetchApi(st, host, now, url, options);
    if url != "" {
      var key := RequestKey(url, o, host.propertyKey);
      if Dedup(st.registry, key, Get(o, "query"), host.encode).Proceed? && NewCall(url, o, host, key).Ok? {
        var call := NewCall(url, o, host, key).value;
        var time := NumberOption(o, "debounceFor");
        var d := Dispatch(st, now, call, NumberOption(o, "cacheFor"), time);
        assert r == d;
        if !d.1.Cached? {
          assert d == Debounced(st, now, call, time);
          DebouncedValid(st, now, call, time);
        }
      } else {
        assert r.1.Throws? || r.1.Existing?;
      }
    }
  }

  lemma FireValid(st: State, now: nat, key: Key)
    requires Valid(st)
    ensures Valid(Fire(st, now, key).0)
  {
    var (store, timer) := Debounce.Fire(st.debounce, key, now);
    Debounce.FireConsistent(st.debounce, key, now);
    if timer.Some? {
      var s0 := st.(debounce := store);
      assert Valid(s0);
      LaunchValid(s0, timer.value.job);
    }
  }

  lemma SettleValid(st: State, host: Host, now: nat, request: nat, response: Response)
    requires Valid(st)
    ensures Valid(Settle(st, host, now, request, response).0)
  {
    if request in st.network {
      var call := st.network[request];
      var s1 := Settle(st, host, now, request, response).0;
      forall k | k in s1.registry
        ensures s1.registry[k].request in s1.network && s1.network[s1.registry[k].request].key == k
      {
        assert k != call.key;
        assert st.registry[k].request != request;
      }
    }
  }

  /** De-duplication: a call whose key holds an in-flight record that the
      de-duplication decision reuses returns that record's promise, and
      nothing changes. The decision reuses when the new query is falsy or
      when both queries give the same query string (`RequestStore.Dedup`),
      so equal query values are only one case (`SameQueryReuses`). */
  lemma {:induction false} ReuseJoins(st: State, host: Host, now: nat, url: string, options: Option<seq<Prop>>)
    requires url != ""
    requires
      var o := OptionsOf(options);
      Dedup(st.registry, RequestKey(url, o, host.propertyKey), Get(o, "query"), host.encode).Reuse?
    ensures
      var key := RequestKey(url, OptionsOf(options), host.propertyKey);
      && key in st.registry
      && FetchApi(st, host, now, url, options) == (st, Existing(st.registry[key].request))
  {
  }

  /** A call answered with a request it issued at once has recorded that
      request, with its own query, under its key. */
  lemma {:induction false} DirectIsRecorded(st: State, host: Host, now: nat, url: string, options: Option<seq<Prop>>)
    requires GoesOut(st, host, now, url, options)
    requires NumberOption(OptionsOf(options), "debounceFor") == 0
    ensures
      var o := OptionsOf(options);
      var key := RequestKey(url, o, host.propertyKey);
      var (st1, reply) := FetchApi(st, host, now, url, options);
      && reply == Direct(st.next) && key in st1.registry && st1.registry[key].request == st.next
      && Get(st1.registry[key].fetchOptions, "query") == Get(o, "query")
      // what goes to fetch: the descriptor built from the caller's options
      && st.next in st1.network
      && st1.network[st.next].fetchOptions == FetchOptions(o, RequestMethod(o).value, host)
      && st1.registry[key].fetchOptions == FetchOptions(o, RequestMethod(o).value, host)
      && st1.network[st.next].target == Target(url, RequestMethod(o).value, Get(o, "query"), host.encode)
      && st1.network[st.next].key == key
      && st1.network[st.next].populate == (NumberOption(o, "cacheFor") > 0)
      && st1.next == st.next + 1
  {
    var o := OptionsOf(options);
    var key := RequestKey(url, o, host.propertyKey);
    assert NewCall(url, o, host, key).Ok?;
    var call := NewCall(url, o, host, key).value;
    var d := Dispatch(st, now, call, NumberOption(o, "cacheFor"), NumberOption(o, "debounceFor"));
    assert FetchApi(st, host, now, url, options) == d;
    var time := NumberOption(o, "debounceFor");
    assert d == Debounced(st, now, call, time);
    assert time == 0;
    assert d.0 == Launch(st, call).0;
  }

  /** So repeating a call that issued a request without a debounce returns
      the very promise of that request, with no new network call. */
  lemma RepeatJoinsInFlight(st: State, host: Host, now: nat, later: nat, url: string, options: Option<seq<Prop>>)
    requires GoesOut(st, host, now, url, options)
    requires NumberOption(OptionsOf(options), "debounceFor") == 0
    ensures
      var st1 := FetchApi(st, host, now, url, options).0;
      FetchApi(st1, host, later, url, options) == (st1, Existing(st.next))
  {
    var o := OptionsOf(options);
    var key := RequestKey(url, o, host.propertyKey);
    var st1 := FetchApi(st, host, now, url, options).0;
    DirectIsRecorded(st, host, now, url, options);
    SameQueryReuses(st1.registry, key, Get(o, "query"), host.encode);
    ReuseJoins(st1, host, later, url, options);
  }

  /** Cleanup: once a request settles, on either path, the next call under
      its key does not reuse it. */
  lemma {:induction false} SettledIsNotReused(st: State, host: Host, now: nat, request: nat, response: Response,
                                              later: nat, url: string, options: Option<seq<Prop>>)
    requires request in st.network
    requires url != "" && RequestKey(url, OptionsOf(options), host.propertyKey) == st.network[request].key
    ensures
      var st1 := Settle(st, host, now, request, response).0;
      !FetchApi(st1, host, later, url, options).1.Existing?
  {
    var st1 := Settle(st, host, now, request, response).0;
    assert st.network[request].key !in st1.registry;
  }

  /** In a valid state a reused promise always belongs to a request that is
      still in flight. */
  lemma ReusedIsInFlight(st: State, host: Host, now: nat, url: string, options: Option<seq<Prop>>)
    requires Valid(st)
    requires FetchApi(st, host, now, url, options).1.Existing?
    ensures FetchApi(st, host, now, url, options).1.request in st.network
  {
    var o := OptionsOf(options);
    var key := RequestKey(url, o, host.propertyKey);
    var verdict := Dedup(st.registry, key, Get(o, "query"), host.encode);
    assert url != "";
    assert verdict.Reuse?;
    assert FetchApi(st, host, now, url, options).1 == Existing(verdict.request);
    assert st.registry[key].request in st.network;
  }

  /** The cache path: with `cacheFor > 0` and nothing in flight, a call is
      answered from the cache exactly when the entry is fresh, with the
      stored data; with `cacheFor <= 0` the cache is never read. */
  lemma {:induction false} CachedIffFresh(st: State, host: Host, now: nat, url: string, options: Option<seq<Prop>>)
    requires url != ""
    requires RequestKey(url, OptionsOf(options), host.propertyKey) !in st.registry
    requires RequestMethod(OptionsOf(options)).Ok?
    ensures
      var o := OptionsOf(options);
      var key := RequestKey(url, o, host.propertyKey);
      var reply := FetchApi(st, host, now, url, options).1;
      && (NumberOption(o, "cacheFor") > 0 ==>
            (reply.Cached? <==> Fresh(st.cache, key, NumberOption(o, "cacheFor"), now)))
      && (reply.Cached? ==> key in st.cache && reply.data == st.cache[key].data)
      && (NumberOption(o, "cacheFor") <= 0 ==> !reply.Cached?)
  {
  }

  /** The conflicting-query case: a call whose query string differs from the
      in-flight one issues a second, overlapping request that takes over the
      registry slot while the first is still in flight. */
  lemma {:induction false} ConflictOverlaps(st: State, host: Host, now: nat, url: string, options: Option<seq<Prop>>)
    requires Valid(st)
    requires url != ""
    requires
      var o := OptionsOf(options);
      var key := RequestKey(url, o, host.propertyKey);
      && key in st.registry
      && Truthy(Get(o, "query"))
      && QueryString(Get(st.registry[key].fetchOptions, "query"), host.encode).Ok?
      && QueryString(Get(st.registry[key].fetchOptions, "query"), host.encode).value != QueryText(Get(o, "query"), host.encode)
      && RequestMethod(o).Ok?
      && NumberOption(o, "cacheFor") <= 0
      && NumberOption(o, "debounceFor") == 0
    ensures
      var o := OptionsOf(options);
      var key := RequestKey(url, o, host.propertyKey);
      var (st1, reply) := FetchApi(st, host, now, url, options);
      && reply == Direct(st.next)
      && st1.registry[key].request == st.next
      && st.registry[key].request in st1.network
      && st.registry[key].request != st.next
  {
  }

  /** ...and when the first of the two settles, it clears the slot the
      second one holds: clearing is by key, not by request. */
  lemma SettleClearsNewerSlot(st: State, host: Host, now: nat, older: nat, response: Response)
    requires Valid(st)
    requires older in st.network
    requires st.network[older].key in st.registry
    requires st.registry[st.network[older].key].request != older
    ensures
      var key := st.network[older].key;
      var st1 := Settle(st, host, now, older, response).0;
      key !in st1.registry && st.registry[key].request in st1.network
  {
  }

  /** A conflicting query does not always mean a second request: a call the
      registry lets proceed, conflicting or not, is answered by a fresh cache
      entry under its key when `cacheFor > 0`, and nothing changes. */
  lemma {:induction false} ConflictCached(st: State, host: Host, now: nat, url: string, options: Option<seq<Prop>>)
    requires url != ""
    requires
      var o := OptionsOf(options);
      var key := RequestKey(url, o, host.propertyKey);
      && Dedup(st.registry, key, Get(o, "query"), host.encode).Proceed?
      && RequestMethod(o).Ok?
      && NumberOption(o, "cacheFor") > 0
      && Fresh(st.cache, key, NumberOption(o, "cacheFor"), now)
    ensures
      var key := RequestKey(url, OptionsOf(options), host.propertyKey);
      FetchApi(st, host, now, url, options) == (st, Cached(st.cache[key].data))
  {
    var o := OptionsOf(options);
    var key := RequestKey(url, o, host.propertyKey);
    var call := NewCall(url, o, host, key).value;
    assert FetchApi(st, host, now, url, options) == Dispatch(st, now, call, NumberOption(o, "cacheFor"), NumberOption(o, "debounceFor"));
  }

  /** A call that reaches the debounce step under a key with a pending timer
      cancels it: the promise handed out for the cancelled timer is never
      resolved by this step ... */
  lemma {:induction false} SupersededIsOrphaned(st: State, host: Host, now: nat, url: string, options: Option<seq<Prop>>)
    requires Valid(st)
    requires GoesOut(st, host, now, url, options)
    requires NumberOption(OptionsOf(options), "debounceFor") != 0
    requires RequestKey(url, OptionsOf(options), host.propertyKey) in st.debounce.timers
    ensures
      var key := RequestKey(url, OptionsOf(options), host.propertyKey);
      Orphaned(FetchApi(st, host, now, url, options).0, st.debounce.timers[key].ticket)
  {
    var o := OptionsOf(options);
    var key := RequestKey(url, o, host.propertyKey);
    var call := NewCall(url, o, host, key).value;
    var time := NumberOption(o, "debounceFor");
    assert FetchApi(st, host, now, url, options) == Debounced(st, now, call, time);
    DebouncedOrphans(st, now, call, time);
  }

  lemma DebouncedOrphans(st: State, now: nat, call: Call, time: int)
    requires Valid(st)
    requires call.key in st.debounce.timers
    requires time != 0
    ensures Orphaned(Debounced(st, now, call, time).0, st.debounce.timers[call.key].ticket)
  {
    var ticket := st.next;
    var (store, decision) := Debounce.Step(st.debounce, call.key, time, now, call, ticket);
    if decision == Debounce.RunNow {
      var (s1, id) := Launch(st.(debounce := store, next := ticket + 1), call);
    }
  }

  lemma DebouncedKeepsOrphaned(st: State, now: nat, call: Call, time: int, ticket: nat)
    requires Orphaned(st, ticket)
    ensures Orphaned(Debounced(st, now, call, time).0, ticket)
  {
    var (store, decision) := Debounce.Step(st.debounce, call.key, time, now, call, st.next);
    if decision == Debounce.RunNow {
      var (s1, id) := Launch(st.(debounce := store, next := st.next + 1), call);
    }
  }

  /** ... nor by any later step. */
  lemma OrphanedStaysOnFetch(st: State, host: Host, now: nat, url: string, options: Option<seq<Prop>>, ticket: nat)
    requires Orphaned(st, ticket)
    ensures Orphaned(FetchApi(st, host, now, url, options).0, ticket)
  {
    var o := OptionsOf(options);
    if url != "" {
      var key := RequestKey(url, o, host.propertyKey);
      if Dedup(st.registry, key, Get(o, "query"), host.encode).Proceed? && NewCall(url, o, host, key).Ok? {
        var call := NewCall(url, o, host, key).value;
        DebouncedKeepsOrphaned(st, now, call, NumberOption(o, "debounceFor"), ticket);
      }
    }
  }

  lemma OrphanedStaysOnFire(st: State, now: nat, key: Key, ticket: nat)
    requires Orphaned(st, ticket)
    ensures Orphaned(Fire(st, now, key).0, ticket)
  {
  }

  lemma OrphanedStaysOnSettle(st: State, host: Host, now: nat, request: nat, response: Response, ticket: nat)
    requires Orphaned(st, ticket)
    ensures Orphaned(Settle(st, host, now, request, response).0, ticket)
  {
  }

  /** Option merging as seen by fetchapi: a call-site option wins, a
      default-only option survives, and a bound fetcher called without
      options does not get the `{query: {}}` default. */
  lemma {:induction false} BoundOptions(apiOptions: seq<Prop>, options: Option<seq<Prop>>, name: string)
    ensures
      var merged := MergeOptions(apiOptions, options);
      && (options.Some? && name in Names(options.value) ==> Get(merged, name) == Get(options.value, name))
      && (!(options.Some? && name in Names(options.value)) ==> Get(merged, name) == Get(apiOptions, name))
      && (options.None? && "query" !in Names(apiOptions) ==> Get(merged, "query") == Undefined)
  {
  }
}

=== FILE: orchestrator.dfy ===
/** fetchapi as a state machine over the three process-wide stores.

    Three steps change the state, each taking the clock as `now`:
    - `FetchApi`: one synchronous call of fetchapi(url, options);
    - `Fire`: the debounce timer of a key goes off;
    - `Settle`: the network call behind a request settles with a response
      given as input (the body already parsed).
    Promises are names: a request id for the promise jsonFetch builds, and a
    ticket for a promise debounce hands out. `bound` records which request
    a ticket was resolved with. Foreign calls come in through `Host`. */
module Orchestrator {
  import opened JsValues
  import opened QueryStrings
  import opened CacheStore
  import opened RequestStore
  import Debounce

  /** What a caller-supplied errorHandler does when it is called. */
  datatype HandlerOutcome = HandlerReturns | HandlerThrows(error: JsVal)

  /** Calls into code outside the model. */
  datatype Host = Host(
    encode: JsVal -> string,                          // encodeURIComponent
    stringify: JsVal -> JsVal,                        // JSON.stringify
    propertyKey: JsVal -> string,                     // a non-string value used as a property key
    handler: (nat, int, JsVal) -> HandlerOutcome)     // errorHandler function `id` on (status, json)

  /** How the network call settles: an ok response, a response that is not
      ok, or a rejection of fetch or of parsing the body. */
  datatype Response = Success(json: JsVal) | HttpError(status: int, json: JsVal) | NetworkFailure(reason: JsVal)

  /** The prepared jsonFetch closure: where the result is registered, what
      is fetched, whether the cache is populated on success, and the error
      handler it calls. */
  datatype Call = Call(key: Key, target: string, fetchOptions: seq<Prop>, populate: bool, errorHandler: JsVal)

  datatype State = State(
    cache: Cache,
    registry: Registry,
    debounce: Debounce.Store<Call>,
    network: map<nat, Call>,      // requests issued and not yet settled
    bound: map<nat, nat>,         // debounce ticket -> request it resolved with
    next: nat)                    // the next fresh request id or ticket

  /** What a call of fetchapi returns. */
  datatype Reply =
    | Throws(error: Error)        // a synchronous throw
    | Existing(request: nat)      // the stored in-flight request promise itself
    | Direct(request: nat)        // the promise of a request it just issued
    | Deferred(ticket: nat)       // a debounce promise
    | Cached(data: JsVal)         // a promise resolved with cached data

  datatype Settlement = Resolved(data: JsVal) | Rejected(error: Error)

  /** The options fetchapi uses when it is called without any. */
  const DefaultOptions: seq<Prop> := [Prop("query", Object([]))]

  const ContentType: string := "Content-Type"

  /** The process-wide stores as the module loads them: all empty. */
  function Init(): (r: State)
    ensures forall k :: k !in r.cache && k !in r.registry && k !in r.debounce.timers && k !in r.debounce.waitStart
    ensures forall id :: id !in r.network && id !in r.bound
  {
    State(map[], map[], Debounce.Empty(), map[], map[], 0)
  }

  // ---------------------------------------------------------------------
  // The request descriptor

  /** The request method: upper-cased, `GET` when absent or falsy; calling
      toUpperCase on a value that is not a string throws. */
  function RequestMethod(options: seq<Prop>): (r: Result<string>)
    ensures !Truthy(Get(options, "method")) ==> r == Ok("GET")
    ensures Truthy(Get(options, "method")) && Get(options, "method").Str? ==>
      r == Ok(ToUpperCase(Get(options, "method").s))
    ensures r.Err? <==> Truthy(Get(options, "method")) && !Get(options, "method").Str?
  {
    var m := Get(options, "method");
    if !Truthy(m) then Ok("GET")
    else if m.Str? then Ok(ToUpperCase(m.s))
    else Err(NotAFunction)
  }

  /** The caller's headers merged over `Content-Type: application/json`;
      a caller `Content-Type` of `false` removes the header altogether. */
  function RequestHeaders(headers: JsVal): (r: seq<Prop>)
    ensures Truthy(headers) && PropOf(headers, ContentType) == Bool(false) ==> ContentType !in Names(r)
    ensures !(Truthy(headers) && PropOf(headers, ContentType) == Bool(false)) ==>
      Get(r, ContentType) ==
        if ContentType in Names(OwnProps(headers)) then Get(OwnProps(headers), ContentType)
        else Str("application/json")
    ensures forall k :: k != ContentType ==> Get(r, k) == Get(OwnProps(headers), k)
    ensures Names(r) - {ContentType} == Names(OwnProps(headers)) - {ContentType}
  {
    var merged := Assign([Prop(ContentType, Str("application/json"))], OwnProps(headers));
    assert Names([Prop(ContentType, Str("application/json"))]) == {ContentType};
    if Truthy(headers) && PropOf(headers, ContentType) == Bool(false) then Delete(merged, ContentType)
    else merged
  }

  /** A FormData body is sent as is; anything else is JSON.stringify'd. */
  function RequestBody(body: JsVal, stringify: JsVal -> JsVal): (r: JsVal)
    ensures body.FormData? ==> r == body
    ensures !body.FormData? ==> r == stringify(body)
  {
    if body.FormData? then body else stringify(body)
  }

  /** The URL fetched: the query string is appended for a GET with a query. */
  function Target(url: string, verb: string, query: JsVal, encode: JsVal -> string): (r: string)
    ensures verb == "GET" && Truthy(query) ==> r == url + QueryText(query, encode)
    ensures !(verb == "GET" && Truthy(query)) ==> r == url
  {
    if verb == "GET" && Truthy(query) then url + QueryText(query, encode) else url
  }

  datatype Prepared = Prepared(verb: string, target: string, fetchOptions: seq<Prop>)

  /** `Object.assign({}, options, {method, headers, body})`, with the
      Content-Type deletion already applied to the headers. */
  function FetchOptions(options: seq<Prop>, verb: string, host: Host): (r: seq<Prop>)
    ensures Get(r, "method") == Str(verb)
    ensures Get(r, "headers") == Object(RequestHeaders(Get(options, "headers")))
    ensures Get(r, "body") == RequestBody(Get(options, "body"), host.stringify)
    ensures forall k :: k !in {"method", "headers", "body"} ==> Get(r, k) == Get(options, k)
  {
    var headers := Object(RequestHeaders(Get(options, "headers")));
    var body := RequestBody(Get(options, "body"), host.stringify);
    var copy := Assign([], options);
    assert "method"[0] != "headers"[0] && "method"[0] != "body"[0] && "headers"[0] != "body"[0];
    var a, b, c := Prop("method", Str(verb)), Prop("headers", headers), Prop("body", body);
    AssignThree(copy, a, b, c);
    var r := Assign(copy, [a, b, c]);
    assert Get(r, "method") == ThreeGet(copy, a, b, c, "method") == Str(verb);
    assert Get(r, "headers") == ThreeGet(copy, a, b, c, "headers") == headers;
    assert Get(r, "body") == ThreeGet(copy, a, b, c, "body") == body;
    r
  }

  /** The descriptor of a new request: its method, the URL fetched and the
      options passed to fetch. */
  function Prepare(url: string, options: seq<Prop>, host: Host): (r: Result<Prepared>)
    ensures r.Err? <==> RequestMethod(options).Err?
    ensures r.Ok? ==> r.value.verb == RequestMethod(options).value
    ensures r.Ok? ==> r.value.fetchOptions == FetchOptions(options, r.value.verb, host)
    ensures r.Ok? ==> r.value.target == Target(url, r.value.verb, Get(options, "query"), host.encode)
  {
    match RequestMethod(options)
    case Err(e) => Err(e)
    case Ok(verb) =>
      Ok(Prepared(verb, Target(url, verb, Get(options, "query"), host.encode), FetchOptions(options, verb, host)))
  }

  /** A numeric option; `undefined` takes the default 0. */
  function NumberOption(options: seq<Prop>, name: string): (r: int)
    ensures Get(options, name).Num? ==> r == Get(options, name).n
    ensures !Get(options, name).Num? ==> r == 0
  {
    match Get(options, name)
    case Num(n) => n
    case _ => 0
  }

  // ---------------------------------------------------------------------
  // The steps

  /** jsonFetch: the network call starts, and its record is stored under the
      key before it can settle. */
  function Launch(st: State, call: Call): (r: (State, nat))
    ensures r.1 == st.next && r.0.next == st.next + 1
    ensures r.0.network == st.network[r.1 := call]
    ensures r.0.registry == StoreRequest(st.registry, call.key, Record(r.1, call.fetchOptions))
    ensures r.0.cache == st.cache && r.0.debounce == st.debounce && r.0.bound == st.bound
  {
    var id := st.next;
    (st.(network := st.network[id := call],
         registry := StoreRequest(st.registry, call.key, Record(id, call.fetchOptions)),
         next := id + 1), id)
  }

  /** `debounce(requestKey, debounceFor, () => jsonFetch(populate))`. */
  function Debounced(st: State, now: nat, call: Call, time: int): (r: (State, Reply))
    ensures r.0.cache == st.cache
    ensures time == 0 ==> r.1 == Direct(st.next) && r.0 == Launch(st, call).0
    ensures time != 0 ==> r.1 == Deferred(st.next)
    ensures r.1.Direct? || r.1.Deferred?
    // any other time: the debounce store takes the step, and the ticket is used up
    ensures time != 0 ==> r.0.debounce == Debounce.Step(st.debounce, call.key, time, now, call, st.next).0
    // the wait has lasted too long: the request `st.next + 1` goes out at once,
    // is registered under its key, and the ticket resolves with it
    ensures time != 0 && Debounce.Waiting(st.debounce, call.key) && now - st.debounce.waitStart[call.key] > time ==>
      && r.0.network == st.network[st.next + 1 := call]
      && r.0.registry == StoreRequest(st.registry, call.key, Record(st.next + 1, call.fetchOptions))
      && r.0.bound == st.bound[st.next := st.next + 1]
      && r.0.next == st.next + 2
    // otherwise nothing goes out yet: the key's timer holds the call and the ticket
    ensures time != 0 && !(Debounce.Waiting(st.debounce, call.key) && now - st.debounce.waitStart[call.key] > time) ==>
      && r.0.network == st.network && r.0.registry == st.registry && r.0.bound == st.bound
      && r.0.next == st.next + 1
      && call.key in r.0.debounce.timers
      && r.0.debounce.timers[call.key].job == call && r.0.debounce.timers[call.key].ticket == st.next
  {
    var ticket := st.next;
    var (store, decision) := Debounce.Step(st.debounce, call.key, time, now, call, ticket);
    match decision
    case RunSync =>
      var (s1, id) := Launch(st, call);
      (s1, Direct(id))
    case RunNow =>
      var (s1, id) := Launch(st.(debounce := store, next := ticket + 1), call);
      (s1.(bound := s1.bound[ticket := id]), Deferred(ticket))
    case Scheduled =>
      (st.(debounce := store, next := ticket + 1), Deferred(ticket))
  }

  /** The options of a call; `None` is a call without any. */
  function OptionsOf(options: Option<seq<Prop>>): (r: seq<Prop>)
    ensures options.None? ==> Names(r) == {"query"} && Get(r, "query") == Object([])
    ensures options.Some? ==> r == options.value
  {
    assert DefaultOptions == [] + [Prop("query", Object([]))];
    NamesSnoc([], Prop("query", Object([])));
    if options.Some? then options.value else DefaultOptions
  }

  /** The jsonFetch closure for a new request under `key`. */
  function NewCall(url: string, options: seq<Prop>, host: Host, key: Key): (r: Result<Call>)
    ensures r.Err? <==> RequestMethod(options).Err?
    ensures r.Err? ==> r.error == NotAFunction
    ensures r.Ok? ==> r.value.key == key
    ensures r.Ok? ==> r.value.populate == (NumberOption(options, "cacheFor") > 0)
    ensures r.Ok? ==> r.value.errorHandler == Get(options, "errorHandler")
    ensures r.Ok? ==> r.value.fetchOptions == FetchOptions(options, RequestMethod(options).value, host)
    ensures r.Ok? ==> Get(r.value.fetchOptions, "query") == Get(options, "query")
    ensures r.Ok? ==> r.value.target == Target(url, RequestMethod(options).value, Get(options, "query"), host.encode)
  {
    match Prepare(url, options, host)
    case Err(e) => Err(e)
    case Ok(p) =>
      assert "query"[0] !in {'m', 'h', 'b'};
      Ok(Call(key, p.target, p.fetchOptions, NumberOption(options, "cacheFor") > 0, Get(options, "errorHandler")))
  }

  /** The cache path or the direct path: with `cacheFor > 0` the debounced
      request goes through useCache, and a hit answers with the cached data;
      otherwise it runs with a populate that does nothing. */
  function Dispatch(st: State, now: nat, call: Call, cacheFor: int, time: int): (r: (State, Reply))
    ensures r.0.cache == st.cache
    ensures cacheFor > 0 ==> (r.1.Cached? <==> Fresh(st.cache, call.key, cacheFor, now))
    ensures r.1.Cached? ==> r.0 == st && call.key in st.cache && r.1.data == st.cache[call.key].data
    ensures !r.1.Cached? ==> r == Debounced(st, now, call, time)
  {
    if cacheFor > 0 then
      match UseCache(st.cache, call.key, cacheFor, now)
      case Hit(data) => (st, Cached(data))
      case Miss => Debounced(st, now, call, time)
    else Debounced(st, now, call, time)
  }

  /** One call of fetchapi(url, options). */
  function FetchApi(st: State, host: Host, now: nat, url: string, options: Option<seq<Prop>>): (r: (State, Reply))
    // fetchapi never writes the cache; only a settling request does
    ensures r.0.cache == st.cache
    ensures url == "" ==> r == (st, Throws(MissingUrl))
    ensures r.1.Throws? || r.1.Existing? || r.1.Cached? ==> r.0 == st
  {
    var o := OptionsOf(options);
    if url == "" then (st, Throws(MissingUrl))
    else
      var key := RequestKey(url, o, host.propertyKey);
      match Dedup(st.registry, key, Get(o, "query"), host.encode)
      case Abort(e) => (st, Throws(e))
      case Reuse(request) => (st, Existing(request))
      case Proceed =>
        match NewCall(url, o, host, key)
        case Err(e) => (st, Throws(e))
        case Ok(call) => Dispatch(st, now, call, NumberOption(o, "cacheFor"), NumberOption(o, "debounceFor"))
  }

  /** The debounce timer of `key` goes off at `now`: its job runs and the
      ticket it held resolves with the request it starts. */
  function Fire(st: State, now: nat, key: Key): (r: (State, Option<nat>))
    ensures r.0.cache == st.cache
    ensures r.1.None? <==> !(key in st.debounce.timers && st.debounce.timers[key].dueAt <= now)
    ensures r.1.None? ==> r.0 == st
    ensures r.1.Some? ==>
      var t := st.debounce.timers[key];
      && r.1.value == st.next && r.0.next == st.next + 1
      && r.0.network == st.network[st.next := t.job]
      && r.0.registry == StoreRequest(st.registry, t.job.key, Record(st.next, t.job.fetchOptions))
      && key !in r.0.debounce.timers && key !in r.0.debounce.waitStart
      && r.0.bound == st.bound[t.ticket := st.next]
    // the timers and wait starts of other keys are untouched
    ensures forall k :: k != key ==>
      (k in r.0.debounce.timers <==> k in st.debounce.timers) && (k in r.0.debounce.waitStart <==> k in st.debounce.waitStart)
    ensures forall k :: k != key && k in st.debounce.timers ==> r.0.debounce.timers[k] == st.debounce.timers[k]
    ensures forall k :: k != key && k in st.debounce.waitStart ==> r.0.debounce.waitStart[k] == st.debounce.waitStart[k]
  {
    var (store, timer) := Debounce.Fire(st.debounce, key, now);
    match timer
    case None => (st, None)
    case Some(t) =>
      var (s1, id) := Launch(st.(debounce := store), t.job);
      (s1.(bound := s1.bound[t.ticket := id]), Some(id))
  }

  /** The result the then/catch chain produces for a response: a response
      that is not ok goes to the error handler, whose return value is
      discarded, so a handler that does not throw lets the body through. */
  function Outcome(errorHandler: JsVal, response: Response, host: Host): (r: Settlement)
    ensures response.Success? ==> r == Resolved(response.json)
    ensures response.NetworkFailure? ==> r == Rejected(Raised(response.reason))
    ensures response.HttpError? && errorHandler == Undefined ==> r == Rejected(ApiError(response.status))
    ensures response.HttpError? && errorHandler.Function? ==>
      r == match host.handler(errorHandler.id, response.status, response.json)
           case HandlerReturns => Resolved(response.json)
           case HandlerThrows(e) => Rejected(Raised(e))
    ensures response.HttpError? && !errorHandler.Function? && errorHandler != Undefined ==> r == Rejected(NotAFunction)
  {
    match response
    case Success(json) => Resolved(json)
    case NetworkFailure(reason) => Rejected(Raised(reason))
    case HttpError(status, json) =>
      match errorHandler
      case Undefined => Rejected(ApiError(status))
      case Function(id) =>
        (match host.handler(id, status, json)
         case HandlerReturns => Resolved(json)
         case HandlerThrows(e) => Rejected(Raised(e)))
      case _ => Rejected(NotAFunction)
  }

  /** The network call of `request` settles with `response` at `now`. The
      key is cleared on both paths, whatever record it holds; the cache is
      populated only on the success path and only for a cached call. */
  function Settle(st: State, host: Host, now: nat, request: nat, response: Response): (r: (State, Option<Settlement>))
    ensures r.1.None? <==> request !in st.network
    ensures r.1.None? ==> r.0 == st
    ensures r.1.Some? ==>
      var call := st.network[request];
      && r.1.value == Outcome(call.errorHandler, response, host)
      && r.0.network == st.network - {request}
      && r.0.registry == ClearRequest(st.registry, call.key, request)
      && r.0.cache == (if r.1.value.Resolved? && call.populate
                       then SetCache(st.cache, call.key, r.1.value.data, now) else st.cache)
      && r.0.debounce == st.debounce && r.0.bound == st.bound && r.0.next == st.next
  {
    if request !in st.network then (st, None)
    else
      var call := st.network[request];
      var s1 := st.(network := st.network - {request},
                    registry := ClearRequest(st.registry, call.key, request));
      match Outcome(call.errorHandler, response, host)
      case Resolved(json) =>
        var cache := if call.populate then SetCache(s1.cache, call.key, json, now) else s1.cache;
        (s1.(cache := cache), Some(Resolved(json)))
      case Rejected(e) => (s1, Some(Rejected(e)))
  }

  /** customFetchapi: `Object.assign({}, apiOptions, options)`. Call-site
      options win on a shared name; names only the defaults have survive. */
  function MergeOptions(apiOptions: seq<Prop>, options: Option<seq<Prop>>): (r: seq<Prop>)
    ensures forall k :: Get(r, k) ==
                        if options.Some? && k in Names(options.value) then Get(options.value, k) else Get(apiOptions, k)
    ensures Names(r) == Names(apiOptions) + (if options.Some? then Names(options.value) else {})
  {
    Assign(Assign([], apiOptions), if options.Some? then options.value else [])
  }

  /** The function customFetchapi(apiOptions) returns, applied to (url, options).
      It always hands fetchapi an object, so the `{query: {}}` default never
      applies (see `Scenarios.BoundFetcherSkipsDefaultQuery`). */
  function CustomFetchApi(apiOptions: seq<Prop>, st: State, host: Host, now: nat, url: string, options: Option<seq<Prop>>): (r: (State, Reply))
    ensures r.0.cache == st.cache
    ensures url == "" ==> r == (st, Throws(MissingUrl))
    ensures r.1.Throws? || r.1.Existing? || r.1.Cached? ==> r.0 == st
  {
    FetchApi(st, host, now, url, Some(MergeOptions(apiOptions, options)))
  }
}

=== FILE: query_strings.dfy ===
/** getQueryString: `?` followed by one `name=encode(value)` part per
    property of the query object, in enumeration order, joined by `&`.
    Names are not encoded. The encoder (ECMA-262 encodeURIComponent) is a
    parameter. The same string doubles as the "query shape" that request
    de-duplication compares, so this module also gives its inverse and
    shows when two query objects have the same shape. */
module QueryStrings {
  import opened JsValues

  /** The (name, encoded value) pair each property contributes. */
  function Pairs(props: seq<Prop>, encode: JsVal -> string): seq<(string, string)>
  {
    seq(|props|, i requires 0 <= i < |props| => (props[i].name, encode(props[i].value)))
  }

  function Part(pair: (string, string)): string
  {
    pair.0 + "=" + pair.1
  }

  function Parts(pairs: seq<(string, string)>): seq<string>
  {
    seq(|pairs|, i requires 0 <= i < |pairs| => Part(pairs[i]))
  }

  /** `parts.join('&')` */
  function Join(parts: seq<string>): string
  {
    if |parts| == 0 then ""
    else if |parts| == 1 then parts[0]
    else parts[0] + "&" + Join(parts[1..])
  }

  lemma JoinCoversFirst(parts: seq<string>)
    ensures |parts| > 0 ==> |Join(parts)| >= |parts[0]|
  {
  }

  /** The query string of a query object's properties. */
  function QueryOf(props: seq<Prop>, encode: JsVal -> string): (r: string)
    ensures |r| >= 1 && r[0] == '?'
    ensures r == "?" <==> |props| == 0
  {
    var parts := Parts(Pairs(props, encode));
    JoinCoversFirst(parts);
    "?" + Join(parts)
  }

  /** The query string of a value that is neither undefined nor null: a
      primitive has no enumerable keys and yields the bare `?`. */
  function QueryText(query: JsVal, encode: JsVal -> string): (r: string)
    ensures |r| >= 1 && r[0] == '?'
  {
    if query.Object? then QueryOf(query.props, encode) else "?"
  }

  /** getQueryString on any value: `Object.keys` throws on undefined and null. */
  function QueryString(query: JsVal, encode: JsVal -> string): (r: Result<string>)
    ensures r.Err? <==> query == Undefined || query == Null
    ensures r.Err? ==> r.error == NullToObject
    ensures r.Ok? ==> |r.value| >= 1 && r.value[0] == '?'
    ensures query.Object? ==> r == Ok(QueryOf(query.props, encode))
    ensures r.Ok? && !query.Object? ==> r.value == "?"
  {
    if query == Undefined || query == Null then Err(NullToObject)
    else Ok(QueryText(query, encode))
  }

  // ---------------------------------------------------------------------
  // The inverse: reading a query string back into (name, value) pairs.

  /** Position of the first `c` in `s`. */
  function IndexOf(s: string, c: char): (i: nat)
    requires c in s
    ensures i < |s| && s[i] == c && c !in s[..i]
  {
    if s[0] == c then 0
    else
      var i := 1 + IndexOf(s[1..], c);
      assert s[..i] == [s[0]] + s[1..][..i - 1];
      i
  }

  lemma IndexOfIsFirst(s: string, c: char, k: nat)
    requires k < |s| && s[k] == c && c !in s[..k]
    ensures c in s && IndexOf(s, c) == k
  {
    var i := IndexOf(s, c);
    assert forall j :: 0 <= j < k ==> s[..k][j] == s[j];
    assert forall j :: 0 <= j < i ==> s[..i][j] == s[j];
  }

  lemma SplitCons(a: string, rest: string)
    requires '&' !in a
    ensures Split(a + "&" + rest, '&') == [a] + Split(rest, '&')
  {
    var s := a + "&" + rest;
    var k := |a|;
    assert s[..k] == a;
    IndexOfIsFirst(s, '&', k);
    assert s[k + 1..] == rest;
  }

  /** `s.split(sep)` */
  function Split(s: string, sep: char): (r: seq<string>)
    ensures |r| >= 1
    decreases |s|
  {
    if sep in s then
      var i := IndexOf(s, sep);
      [s[..i]] + Split(s[i + 1..], sep)
    else [s]
  }

  /** A part split at its first `=`. */
  function SplitPair(part: string): (string, string)
  {
    if '=' in part then
      var i := IndexOf(part, '=');
      (part[..i], part[i + 1..])
    else (part, "")
  }

  function ParseQuery(q: string): seq<(string, string)>
  {
    var body := if |q| > 0 && q[0] == '?' then q[1..] else q;
    if body == "" then []
    else
      var parts := Split(body, '&');
      seq(|parts|, i requires 0 <= i < |parts| => SplitPair(parts[i]))
  }

  /** No name holds `&` or `=` and no encoded value holds `&`. The real
      encodeURIComponent escapes both characters, so only names matter. */
  ghost predicate Unambiguous(props: seq<Prop>, encode: JsVal -> string)
  {
    forall i :: 0 <= i < |props| ==>
      '&' !in props[i].name && '=' !in props[i].name && '&' !in encode(props[i].value)
  }

  lemma {:induction false} SplitJoin(parts: seq<string>)
    requires |parts| >= 1
    requires forall i :: 0 <= i < |parts| ==> '&' !in parts[i]
    ensures Split(Join(parts), '&') == parts
    decreases |parts|
  {
    if |parts| == 1 {
      assert Join(parts) == parts[0];
    } else {
      SplitCons(parts[0], Join(parts[1..]));
      SplitJoin(parts[1..]);
      assert parts == [parts[0]] + parts[1..];
    }
  }

  lemma SplitPairPart(pair: (string, string))
    requires '=' !in pair.0
    ensures SplitPair(Part(pair)) == pair
  {
    var s := Part(pair);
    var k := |pair.0|;
    assert s[..k] == pair.0;
    IndexOfIsFirst(s, '=', k);
    assert s[k + 1..] == pair.1;
  }

  /** Reading a query string back gives exactly the pairs it was built from. */
  lemma {:induction false} ParseQueryOf(props: seq<Prop>, encode: JsVal -> string)
    requires Unambiguous(props, encode)
    ensures ParseQuery(QueryOf(props, encode)) == Pairs(props, encode)
  {
    var pairs := Pairs(props, encode);
    var parts := Parts(pairs);
    var q := QueryOf(props, encode);
    assert q[1..] == Join(parts);
    if |props| > 0 {
      forall i | 0 <= i < |parts|
        ensures '&' !in parts[i]
      {
        assert parts[i] == pairs[i].0 + "=" + pairs[i].1;
      }
      SplitJoin(parts);
      forall i | 0 <= i < |parts|
        ensures SplitPair(parts[i]) == pairs[i]
      {
        SplitPairPart(pairs[i]);
      }
    }
  }

  /** Two query objects have the same shape exactly when they list the same
      names with the same encoded values in the same order. */
  lemma SameQueryShape(a: seq<Prop>, b: seq<Prop>, encode: JsVal -> string)
    requires Unambiguous(a, encode) && Unambiguous(b, encode)
    ensures QueryOf(a, encode) == QueryOf(b, encode) <==> Pairs(a, encode) == Pairs(b, encode)
  {
    if QueryOf(a, encode) == QueryOf(b, encode) {
      ParseQueryOf(a, encode);
      ParseQueryOf(b, encode);
    }
  }
}

=== FILE: request_store.dfy ===
/** The request registry: key -> the in-flight `{request, fetchOptions}`
    record, and the de-duplication decision taken against it. */
module RequestStore {
  import opened JsValues
  import opened QueryStrings

  /** `request` names the pending network call; `fetchOptions` is the
      descriptor it was issued with (its `query` is the stored query shape). */
  datatype Record = Record(request: nat, fetchOptions: seq<Prop>)

  type Registry = map<Key, Record>

  /** storeRequest */
  function StoreRequest(registry: Registry, key: Key, record: Record): (r: Registry)
    ensures key in r && r[key] == record
    ensures forall k :: k != key ==> (k in r <==> k in registry)
    ensures forall k :: k != key && k in registry ==> r[k] == registry[k]
  {
    registry[key := record]
  }

  /** clearRequest: removes the key whatever record is stored there; the
      request it is given is ignored. */
  function ClearRequest(registry: Registry, key: Key, request: nat): (r: Registry)
    ensures key !in r
    ensures forall k :: k != key ==> (k in r <==> k in registry)
    ensures forall k :: k != key && k in registry ==> r[k] == registry[k]
  {
    registry - {key}
  }

  /** getRequestFromStore */
  function GetRequest(registry: Registry, key: Key): (r: Option<Record>)
    ensures r.Some? <==> key in registry
    ensures r.Some? ==> r.value == registry[key]
  {
    if key in registry then Some(registry[key]) else None
  }

  /** getRequestKey: `options.key` when truthy, otherwise the URL. A key
      that is not a string becomes its property-key string. */
  function RequestKey(url: string, options: seq<Prop>, propertyKey: JsVal -> string): (r: Key)
    ensures !Truthy(Get(options, "key")) ==> r == url
    ensures Get(options, "key").Str? && Get(options, "key").s != "" ==> r == Get(options, "key").s
    ensures Truthy(Get(options, "key")) && !Get(options, "key").Str? ==> r == propertyKey(Get(options, "key"))
  {
    var key := Get(options, "key");
    if !Truthy(key) then url
    else if key.Str? then key.s
    else propertyKey(key)
  }

  datatype Verdict = Reuse(request: nat) | Proceed | Abort(error: Error)

  /** The de-duplication decision of fetchapi. A stored record is reused
      unless a truthy query is given and the query string of the stored
      query differs from that of the new one; then a new request goes out.
      The stored query string is computed first, so an in-flight request
      issued without a query makes a call with a query throw. */
  function Dedup(registry: Registry, key: Key, query: JsVal, encode: JsVal -> string): (r: Verdict)
    ensures key !in registry ==> r == Proceed
    ensures key in registry && !Truthy(query) ==> r == Reuse(registry[key].request)
    ensures key in registry && Truthy(query) ==>
      (r.Reuse? <==> QueryString(Get(registry[key].fetchOptions, "query"), encode) == Ok(QueryText(query, encode)))
    ensures r.Reuse? ==> key in registry && r.request == registry[key].request
    ensures r.Abort? <==>
      (key in registry && Truthy(query) && Get(registry[key].fetchOptions, "query") in {Undefined, Null})
    ensures r.Abort? ==> r.error == NullToObject
  {
    match GetRequest(registry, key)
    case None => Proceed
    case Some(existing) =>
      if !Truthy(query) then Reuse(existing.request)
      else
        match QueryString(Get(existing.fetchOptions, "query"), encode)
        case Err(e) => Abort(e)
        case Ok(stored) =>
          if stored != QueryText(query, encode) then Proceed
          else Reuse(existing.request)
  }

  /** A call whose query is the very value the in-flight record was issued
      with always reuses that record. */
  lemma SameQueryReuses(registry: Registry, key: Key, query: JsVal, encode: JsVal -> string)
    requires key in registry && Get(registry[key].fetchOptions, "query") == query
    ensures Dedup(registry, key, query, encode) == Reuse(registry[key].request)
  {
    assert Truthy(query) ==> QueryString(query, encode) == Ok(QueryText(query, encode));
  }
}

=== FILE: scenarios.dfy ===
/** Concrete runs of the model: worked examples of the request helper,
    replayed step by step with explicit clock values. */
module Scenarios {
  import opened JsValues
  import opened QueryStrings
  import opened CacheStore
  import opened RequestStore
  import Debounce
  import opened Orchestrator
  import Lifecycle

  /** `{a: 1, b: "x y"}` gives `?a=1&b=x%20y` for an encoder that maps the
      two values as encodeURIComponent does. */
  lemma QueryExample(encode: JsVal -> string)
    requires encode(Num(1)) == "1" && encode(Str("x y")) == "x%20y"
    ensures QueryOf([Prop("a", Num(1)), Prop("b", Str("x y"))], encode) == "?a=1&b=x%20y"
  {
    var pairs := Pairs([Prop("a", Num(1)), Prop("b", Str("x y"))], encode);
    assert pairs == [("a", "1"), ("b", "x%20y")];
    var parts := Parts(pairs);
    assert Part(("a", "1")) == "a=1" && Part(("b", "x%20y")) == "b=x%20y";
    assert parts == ["a=1", "b=x%20y"];
    assert Join(parts) == "a=1" + "&" + Join(["b=x%20y"]);
  }

  /** Key order is part of the query shape: the same properties in another
      order give another string. */
  lemma QueryOrderMatters(encode: JsVal -> string)
    requires encode(Num(1)) == "1" && encode(Num(2)) == "2"
    ensures QueryOf([Prop("a", Num(1)), Prop("b", Num(2))], encode) !=
            QueryOf([Prop("b", Num(2)), Prop("a", Num(1))], encode)
  {
    var p1 := Parts(Pairs([Prop("a", Num(1)), Prop("b", Num(2))], encode));
    assert p1[0] == Part(("a", "1")) == "a=1";
    var p2 := Parts(Pairs([Prop("b", Num(2)), Prop("a", Num(1))], encode));
    assert p2[0] == Part(("b", "2")) == "b=2";
    assert |p1| == 2 && |p2| == 2;
    assert Join(p1)[0] == 'a';
    assert Join(p2)[0] == 'b';
    assert QueryOf([Prop("a", Num(1)), Prop("b", Num(2))], encode)[1] == 'a';
    assert QueryOf([Prop("b", Num(2)), Prop("a", Num(1))], encode)[1] == 'b';
  }

  /** A caller `Content-Type: false` leaves no Content-Type header, while
      other caller headers stay. */
  lemma ContentTypeSuppressed()
    ensures
      var h := RequestHeaders(Object([Prop("Content-Type", Bool(false)), Prop("Accept", Str("text/csv"))]));
      "Content-Type" !in Names(h) && Get(h, "Accept") == Str("text/csv")
  {
    HeaderLiteralReads();
  }

  lemma HeaderLiteralReads()
    ensures Get([Prop("Content-Type", Bool(false)), Prop("Accept", Str("text/csv"))], "Content-Type") == Bool(false)
    ensures Get([Prop("Content-Type", Bool(false)), Prop("Accept", Str("text/csv"))], "Accept") == Str("text/csv")
  {
    assert "Accept"[0] != "Content-Type"[0];
  }

  /** Trailing edge: three calls 50 ms apart with a 200 ms debounce leave one
      timer, holding the last job and due 200 ms after the last call. */
  lemma TrailingEdge(j1: int, j2: int, j3: int)
    ensures
      var s0 := Debounce.Empty<int>();
      var (s1, d1) := Debounce.Step(s0, "k", 200, 1000, j1, 1);
      var (s2, d2) := Debounce.Step(s1, "k", 200, 1050, j2, 2);
      var (s3, d3) := Debounce.Step(s2, "k", 200, 1100, j3, 3);
      && d1 == Debounce.Scheduled && d2 == Debounce.Scheduled && d3 == Debounce.Scheduled
      && s3.timers == map["k" := Debounce.Timer(j3, 3, 1300)]
      && s3.waitStart == map["k" := 1000]
      && Debounce.Fire(s3, "k", 1299).1 == None
      && Debounce.Fire(s3, "k", 1300).1 == Some(Debounce.Timer(j3, 3, 1300))
  {
  }

  /** Anti-starvation: under continuous calls the one arriving more than
      200 ms after the wait began runs at once. */
  lemma WaitedLongEnough(j: int)
    ensures
      var s0 := Debounce.Empty<int>();
      var (s1, d1) := Debounce.Step(s0, "k", 200, 1000, j, 1);
      var (s2, d2) := Debounce.Step(s1, "k", 200, 1100, j, 2);
      var (s3, d3) := Debounce.Step(s2, "k", 200, 1200, j, 3);
      var (s4, d4) := Debounce.Step(s3, "k", 200, 1201, j, 4);
      && d3 == Debounce.Scheduled
      && d4 == Debounce.RunNow
      && s4 == Debounce.Empty<int>()
  {
  }

  /** With `time == 0` debounce is synchronous and leaves a pending timer of
      the key in place. */
  lemma SyncKeepsPendingTimer(j: int)
    ensures
      var (s1, d1) := Debounce.Step(Debounce.Empty<int>(), "k", 200, 1000, j, 1);
      var (s2, d2) := Debounce.Step(s1, "k", 0, 1050, j, 2);
      d2 == Debounce.RunSync && s2 == s1 && "k" in s2.timers
  {
  }

  /** A populated entry is served for `cacheFor` ms, boundary included. */
  lemma CacheWindow(data: JsVal)
    ensures
      var c := SetCache(map[], "/items", data, 1000);
      && UseCache(c, "/items", 1000, 2000) == Hit(data)
      && UseCache(c, "/items", 1000, 2001) == Miss
  {
  }

  /** Cache hit end to end: a request with `cacheFor: 1000` that succeeds at
      t=1000 answers the same call from the cache at t=2000 and issues a new
      request at t=2001. */
  lemma CacheHitEndToEnd(host: Host, json: JsVal)
    ensures
      var opts := Some([Prop("cacheFor", Num(1000))]);
      var (s1, r1) := FetchApi(Init(), host, 1000, "/items", opts);
      var (s2, out) := Settle(s1, host, 1000, 0, Success(json));
      && r1 == Direct(0)
      && out == Some(Resolved(json))
      && FetchApi(s2, host, 2000, "/items", opts).1 == Cached(json)
      && FetchApi(s2, host, 2001, "/items", opts).1 == Direct(1)
  {
    var opts := Some([Prop("cacheFor", Num(1000))]);
    var o := [Prop("cacheFor", Num(1000))];
    assert OptionsOf(opts) == o;
    assert Get(o, "key") == Undefined && Get(o, "query") == Undefined && Get(o, "method") == Undefined;
    assert Get(o, "cacheFor") == Num(1000) && Get(o, "debounceFor") == Undefined;
    // t=1000: nothing cached or in flight, so request 0 goes out
    Lifecycle.DirectIsRecorded(Init(), host, 1000, "/items", opts);
    var (s1, r1) := FetchApi(Init(), host, 1000, "/items", opts);
    // it settles: the registry slot is cleared and the cache populated
    var (s2, out) := Settle(s1, host, 1000, 0, Success(json));
    assert "/items" !in s2.registry && s2.cache == SetCache(map[], "/items", json, 1000) && s2.next == 1;
    // t=2000: the entry is fresh; t=2001: it has expired, so request 1 goes out
    Lifecycle.CachedIffFresh(s2, host, 2000, "/items", opts);
    Lifecycle.DirectIsRecorded(s2, host, 2001, "/items", opts);
  }

  /** fetchapi called without options fetches `url?`: the default query is an
      empty object, which is truthy. */
  lemma DefaultQueryAddsMark(host: Host)
    ensures
      var (s1, r1) := FetchApi(Init(), host, 0, "/items", None);
      && r1 == Direct(0) && 0 in s1.network && s1.network[0].target == "/items?"
  {
    var d := DefaultOptions;
    assert Get(d, "key") == Undefined && Get(d, "method") == Undefined && Get(d, "query") == Object([]);
    assert QueryOf([], host.encode) == "?";
    FirstCall(host, "/items", None);
  }

  /** A fetcher bound to no defaults passes `{}` on, so it fetches `url`
      itself, without the `?` plain fetchapi adds. */
  lemma BoundFetcherSkipsDefaultQuery(host: Host)
    ensures
      var (s2, r2) := CustomFetchApi([], Init(), host, 0, "/items", None);
      && r2 == Direct(0) && 0 in s2.network && s2.network[0].target == "/items"
  {
    var m := MergeOptions([], None);
    assert m == [];
    FirstCall(host, "/items", Some(m));
  }

  /** The first call on fresh stores, without cache or debounce, issues
      request 0 with the target its options give. */
  lemma FirstCall(host: Host, url: string, options: Option<seq<Prop>>)
    requires url != ""
    requires RequestMethod(OptionsOf(options)).Ok?
    requires NumberOption(OptionsOf(options), "cacheFor") == 0 && NumberOption(OptionsOf(options), "debounceFor") == 0
    ensures
      var o := OptionsOf(options);
      var (s1, r1) := FetchApi(Init(), host, 0, url, options);
      && r1 == Direct(0) && 0 in s1.network
      && s1.network[0].target == Target(url, RequestMethod(o).value, Get(o, "query"), host.encode)
  {
    var o := OptionsOf(options);
    var key := RequestKey(url, o, host.propertyKey);
    assert Dedup(Init().registry, key, Get(o, "query"), host.encode) == Proceed;
    var call := NewCall(url, o, host, key).value;
    var r := FetchApi(Init(), host, 0, url, options);
    assert r == Dispatch(Init(), 0, call, 0, 0);
    assert r == Debounced(Init(), 0, call, 0);
    assert r.0 == Launch(Init(), call).0;
  }

  /** Queries are compared by their query strings, not their values: with
      `{a: 1}` in flight under `/x`, a call with `{a: "1"}` gets the same
      promise back when both values encode to `1`. */
  lemma EqualQueryStringsJoin(host: Host, now: nat)
    requires host.encode(Num(1)) == "1" && host.encode(Str("1")) == "1"
    ensures
      var stored := [Prop("query", Object([Prop("a", Num(1))]))];
      var st := Init().(registry := map["/x" := Record(0, stored)]);
      FetchApi(st, host, now, "/x", Some([Prop("query", Object([Prop("a", Str("1"))]))])) == (st, Existing(0))
  {
    assert QueryOf([Prop("a", Num(1))], host.encode) == "?a=1";
    assert QueryOf([Prop("a", Str("1"))], host.encode) == "?a=1";
  }
}
